=== FILE: README.md ===
# Account dialog, session provider and archive filter

A Dafny model of the three pieces of local logic in the idea-taking web
front end:

- **The account dialog** (`AccountModal`): the per-screen rule that enables
  the submit button, the inputs each screen renders, and the submit
  dispatcher that either records a field error and keeps the form or clears
  the form (`clearValues`) and closes the dialog. The dialog's own backend
  calls are commented out in the component, so a submission performs no
  session operation.
- **The session provider** (`AuthProvider`): the state
  `{authError, isAuthLoading, user}`, the error-message map `handleError`,
  the auth-state callback and the nine operations, each as a transition.
  Every awaited identity-backend call is an input `Reply` (`Ok(value)` or
  `Err(failure)`), and a failure is either an error with a backend code or
  any other thrown value.
- **The archive page** (`Archive`): the filter on `isArchived && !isTrash`,
  notes before projects, and the empty-placeholder/list choice.

`JsStrings` models `String.prototype.trim` (the ECMAScript white-space and
line-terminator code points), which the enablement rule relies on, and
`Wrappers` holds `Option`, the model of a value that may be `null` or
`undefined`.

Modelling choices:

- `user?.email === email` is `CurrentEmail(user) == Some(email)`: a missing
  user and a user without an email both compare unequal. `if (user?.email)`
  is JavaScript truthiness, so a user whose email is the empty string fails it.
- React state updates are taken one after another. `handleSubmit` first
  clears the three field errors, and a failed check then sets one field of
  that cleared record.
- `'' + error` is the failure's `text`; the provider's own
  `new Error('User not found.')` stringifies to `Error: User not found.`.
- `deleteUserAccount` with nobody signed in does nothing and resolves.
- Only `createUserAccount`, `logIn`, `logInWithGoogle` and the auth-state
  callback touch `isAuthLoading`; the other operations never raise it.
- The password-reset screen is enabled only when a signed-in user's email
  equals the typed one, so with nobody signed in it is always disabled.
- `.length` on the display name counts UTF-16 code units, while a Dafny
  `string` holds Unicode scalar values; `JsStrings.Utf16Length` converts.

## Model

| member | source | states |
|---|---|---|
| `JsStrings.Trim` | app/components/AccountModal/AccountModal.tsx:119-127 | `trim` yields the slice of the string left after stripping a blank prefix and a blank suffix; it is empty exactly when every character is white space or a line terminator, and otherwise neither starts nor ends with one |
| `JsStrings.Utf16Length` | app/components/AccountModal/AccountModal.tsx:125 | `.length` counts UTF-16 code units: between one and two per character, exactly one per character iff none lies beyond U+FFFF, exactly two per character iff all do |
| `JsStrings.Utf16LengthChar` | app/components/AccountModal/AccountModal.tsx:125 | one character has length 1, or 2 beyond U+FFFF (a surrogate pair) |
| `JsStrings.Utf16LengthAppend` | app/components/AccountModal/AccountModal.tsx:125 | the length of a concatenation is the sum of the lengths; with the one-character value this fixes the length of every string |
| `AccountModal.IsButtonEnabled` | app/components/AccountModal/AccountModal.tsx:117-130 | per screen, both directions: email needs content in email and password; password needs a signed-in user whose email equals the typed one; delete needs the exact phrase `delete-my-account` and password content; displayName needs content and a UTF-16 length above 1; verification needs email content; every other screen string is disabled |
| `AccountModal.ClearValues` | app/components/AccountModal/AccountModal.tsx:41-49 | every input empty, password hidden, no field error; on the cleared form no screen's button is enabled except password reset for a user whose email is empty |
| `AccountModal.Dispatch` | app/components/AccountModal/AccountModal.tsx:56-110 | a submission either closes the dialog with a cleared form or keeps every input as typed |
| `AccountModal.HandleSubmit` | app/components/AccountModal/AccountModal.tsx:56-115 | as written: email and displayName close iff the value differs from the current one, else set only that field error; password closes iff the current email is truthy, else changes nothing but the reset errors; verification closes iff the typed email equals the current one, else sets the mismatch error; `deleteAccount` always closes; any other screen only clears the errors |
| `AccountModal.HandleSubmitCorrected` | app/components/AccountModal/AccountModal.tsx:81-86 | with the deletion case keyed on `delete`: a `delete` submission closes with a cleared form, `deleteAccount` falls to the default, every other screen behaves as written |
| `AccountModal.SubmitButton` | app/components/AccountModal/AccountModal.tsx:268-277 | with the corrected dispatcher: a disabled submit button leaves the form untouched, on every unknown screen in particular; an enabled one runs the corrected dispatcher |
| `AccountModal.VisibleInputs` | app/components/AccountModal/AccountModal.tsx:189-263 | the password input is rendered iff the screen is not displayName, verification or password; the email input iff it is verification, email or password; the confirmation input iff it is delete; the display-name input iff it is displayName |
| `AccountModal.PasswordFieldScreens` | app/components/AccountModal/AccountModal.tsx:244 | the password input appears exactly on the email and delete screens and on unknown screens |
| `AccountModal.EnablementReadsVisibleInputs` | app/components/AccountModal/AccountModal.tsx:117-263 | two forms that agree on the inputs a screen renders get the same enablement on that screen |
| `AccountModal.DisplayNameLength` | app/components/AccountModal/AccountModal.tsx:124-125 | a display name of UTF-16 length 1 is disabled; `AB` is enabled, and so is a single supplementary-plane character such as U+1F600, whose length is 2 |
| `AccountModal.PasswordResetNeedsUser` | app/components/AccountModal/AccountModal.tsx:120-121 | with nobody signed in the password-reset button is disabled whatever is typed |
| `AccountModal.NoScreenEnablesDeletion` | app/components/AccountModal/AccountModal.tsx:81-130 | no screen value both enables the button and reaches the `deleteAccount` case |
| `AccountModal.EnabledDeleteIsIgnored` | app/components/AccountModal/AccountModal.tsx:81-110 | an enabled `delete` submission lands in the default case: inputs kept, errors cleared, dialog open |
| `AccountModal.DeleteMismatchWitness` | app/components/AccountModal/AccountModal.tsx:122-123 | a concrete filled-in delete form that is enabled yet not acted on |
| `AccountModal.EnabledDeleteCloses` | app/components/AccountModal/AccountModal.tsx:81-86 | with the corrected key, pressing an enabled delete button clears the form and closes |
| `AccountModal.RenderedErrors` | app/components/AccountModal/AccountModal.tsx:265-266 | the footer shows exactly the non-empty email and password errors, and no field error iff both are empty; the display-name error is never shown |
| `AccountModal.RenderedErrorsCorrected` | app/components/AccountModal/AccountModal.tsx:265-266 | with the display-name error rendered too, the footer shows exactly the non-empty field errors, and no field error iff there is none |
| `AccountModal.EnabledSubmitResponds` | app/components/AccountModal/AccountModal.tsx:56-130 | with the corrected dispatcher, pressing an enabled button closes the dialog or shows an error in the footer iff it is neither password reset for a user whose email is empty nor a display name equal to the current one (as written, the enabled delete screen is a third exception, see `AccountModal.EnabledDeleteIsIgnored`) |
| `AccountModal.SilentDisplayNameWitness` | app/components/AccountModal/AccountModal.tsx:88-91 | a concrete enabled display-name submission that records its error, stays open and shows nothing |
| `AccountModal.EnabledSubmitRespondsCorrected` | app/components/AccountModal/AccountModal.tsx:56-130 | with the display-name error rendered as well, an enabled press responds visibly iff it is not password reset for a user whose email is empty |
| `AuthProvider.HandleError` | app/providers/AuthProvider.tsx:52-79 | a coded failure's message decodes back to its code; any other failure is stringified as-is |
| `AuthProvider.KnownCodeMessages` | app/providers/AuthProvider.tsx:54-72 | each of the six known codes has its fixed message |
| `AuthProvider.UnknownCodeMessage` | app/providers/AuthProvider.tsx:73-74 | an unknown code gives `Unknown FirebaseError, error.code: ` followed by the code |
| `AuthProvider.HandleErrorSeparatesCodes` | app/providers/AuthProvider.tsx:52-79 | distinct codes always give distinct messages |
| `AuthProvider.CodedMessageNonEmpty` | app/providers/AuthProvider.tsx:53-75 | a message for a coded failure is never empty |
| `AuthProvider.AuthStateChanged` | app/providers/AuthProvider.tsx:86-90 | the callback installs the notified user, ends with loading false and keeps the error |
| `AuthProvider.CreateUserAccount` | app/providers/AuthProvider.tsx:94-104 | loading false, user kept and nothing thrown whatever happens; a failure of creation, or else of the verification email, is mapped into the error; success keeps the error |
| `AuthProvider.SignIn` | app/providers/AuthProvider.tsx:120-142 | `logIn` and `logInWithGoogle`: loading false and nothing thrown; success installs the returned user and keeps the error; failure keeps the user and records the mapped message |
| `AuthProvider.DeleteUserAccount` | app/providers/AuthProvider.tsx:106-118 | with nobody signed in nothing changes and nothing is thrown; after re-authentication and deletion succeed the user is gone; with a user signed in, a failed re-authentication, or else a failed deletion, keeps the user, records its raw text and is rethrown |
| `AuthProvider.LogOut` | app/providers/AuthProvider.tsx:144-152 | success drops the user; failure keeps the user, records the unmapped text and rethrows |
| `AuthProvider.SendPasswordReset` | app/providers/AuthProvider.tsx:154-164 | without a backend handle, or on success, nothing changes; a failure records the mapped message and is rethrown; user and loading never change |
| `AuthProvider.WithUser` | app/providers/AuthProvider.tsx:166-205 | `sendUserVerification`, `updateUserDisplayName`, `updateUserEmail`: with nobody signed in they throw and record `Error: User not found.`; a backend failure is recorded raw and rethrown; success changes nothing; user and loading never change |
| `AuthProvider.Pending` | app/providers/AuthProvider.tsx:94-142 | while their backend calls are outstanding, account creation and the two sign-ins show loading; no other operation does |
| `AuthProvider.PendingSettles` | app/providers/AuthProvider.tsx:94-142 | completing an operation from its pending state gives the same result as from the state before it, and an operation that showed loading while outstanding ends with loading cleared |
| `AuthProvider.LoadingFrame` | app/providers/AuthProvider.tsx:86-205 | only the callback, account creation and the sign-ins touch `isAuthLoading`, and they leave it false |
| `AuthProvider.UserFrame` | app/providers/AuthProvider.tsx:86-205 | the user changes only by the callback, a clean sign-in, or a clean sign-out or deletion (to nobody) |
| `AuthProvider.RaisedKeepsState` | app/providers/AuthProvider.tsx:106-205 | a rejected operation keeps user and loading and has recorded the error it rethrows |
| `AuthProvider.ErrorOnlyFromFailures` | app/providers/AuthProvider.tsx:52-205 | the error is only ever set to a message derived from a failure the operation met; without failures it is untouched |
| `AuthProvider.CleanRunKeepsError` | app/providers/AuthProvider.tsx:94-205 | a whole run of operations without failures, in which no user-requiring operation runs while nobody is signed in, never changes the error, so never resets it to empty |
| `AuthProvider.RunStaysIdle` | app/providers/AuthProvider.tsx:86-142 | starting idle, the session is idle after every run of completed operations |
| `AuthProvider.ErrorNeverCleared` | app/providers/AuthProvider.tsx:48-205 | once set, the error is never emptied by a run in which every message an operation could record is non-empty: the mapped message for account creation, the sign-ins and password reset, the raw text (or `Error: User not found.`) for the others |
| `AuthProvider.RunFromInitial` | app/providers/AuthProvider.tsx:48-205 | from start-up every run ends idle, and a clean run ends with no error |
| `AuthProvider.MappedMessageKeepsError` | app/providers/AuthProvider.tsx:52-56 | a sign-in rejected with a known code and empty text records a non-empty mapped message, so a set error stays set |
| `Archive.Keep` | app/archive/page.tsx:18-19 | the filter keeps only archived, non-trashed ideas, and each of those exactly as often as in the source |
| `Archive.ArchiveIdeas` | app/archive/page.tsx:18-20 | every listed idea qualifies, every qualifying note and project is listed with its multiplicity, and no note follows a project |
| `Archive.ArchivePage` | app/archive/page.tsx:24-41 | the placeholder shows iff no note or project qualifies; otherwise the non-empty archive is listed; never both |
| `Archive.KeepDrawsFrom` | app/archive/page.tsx:18-19 | every kept idea comes from the source collection |
| `Archive.ArchiveEmptyIff` | app/archive/page.tsx:18-30 | the archive is empty iff nothing qualifies |
| `Archive.KeepIsSubsequence` | app/archive/page.tsx:18-19 | the filter keeps the source order |
| `Archive.KeepLength` | app/archive/page.tsx:18-19 | the filter's length equals an independent count of qualifying ideas |
| `Archive.KeepFixedPoint` | app/archive/page.tsx:18-19 | the filter leaves a sequence unchanged iff every element qualifies |
| `Archive.RefilterIsIdentity` | app/archive/page.tsx:18-20 | filtering the archive again changes nothing |
| `Archive.ArchiveKeepsSourceOrder` | app/archive/page.tsx:20 | the archive is a prefix of notes in note order followed by projects in project order |
| `Archive.ArchiveLength` | app/archive/page.tsx:18-20 | the length is the qualifying-note count plus the qualifying-project count, at most both lengths together |
| `Archive.ArchiveExample` | app/archive/page.tsx:18-41 | an archived note, an archived trashed note and a live project list exactly the first note |

## Findings

| source | as written | input that shows it | evidently intended | confidence | as-written member | corrected member |
|---|---|---|---|---|---|---|
| app/components/AccountModal/AccountModal.tsx:81 | the deletion case of `handleSubmit` matches `"deleteAccount"`, while the header, the confirmation input and the enablement rule use `"delete"` | screen `delete`, confirmation `delete-my-account`, password `pw`: the button is enabled, the submission falls into the default case and the dialog stays open with its inputs | the deletion case matches `"delete"`, so an enabled delete submission clears the form and closes | high; not executed | `AccountModal.DeleteMismatchWitness` | `AccountModal.EnabledDeleteCloses` |
| app/components/AccountModal/AccountModal.tsx:265-267 | the footer renders `errors.email`, `errors.password` and `authError`, but not `errors.displayName`, which line 90 sets | screen `displayName`, typed name `Bob`, signed-in user whose display name is `Bob`: the button is enabled, the submission records `Display name is the same as current display name`, keeps the dialog open and the footer shows no field error | the display-name error is rendered like the other two | medium; not executed | `AccountModal.SilentDisplayNameWitness` | `AccountModal.EnabledSubmitRespondsCorrected` |

`AccountModal.HandleSubmit` models the dispatcher as written;
`AccountModal.HandleSubmitCorrected` is the corrected one, and
`AccountModal.SubmitButton` (the button as the user presses it) uses it.
`AccountModal.RenderedErrors` is the footer as written and
`AccountModal.RenderedErrorsCorrected` the footer that also shows the
display-name error.

## Left out

- Rendering: JSX, the `FormHeader` texts, MUI components, styles, the info messages passed to `setInfo`, and the rendering of `authError`. Which field errors the footer shows is modelled by `AccountModal.RenderedErrors`.
- The show-password toggle (`handleClickShowPassword`) and the password input's `type`; the model keeps `showPassword` only as a form field that clearing resets.
- `handleRemoveDisplayName` and the Cancel button: both only call `clearValues`, whose effect `ClearValues` states; the display-name removal call is commented out.
- The dialog's commented-out backend calls, so no dialog submission reaches the session model; for the same reason its `catch` block has nothing reachable to model.
- `Router.push`, `console` logging and the outside-provider guard of `useAuthContext`: plumbing.
- The identity backend itself (account creation, credentials, re-authentication, popups, e-mail dispatch, profile updates): foreign code, modelled only as the `Reply` each call settles with. The operations' string arguments reach only these calls and are not kept. A null `auth` handle in operations other than `sendPasswordReset` shows up only as a failing reply.
- `AuthProvider.WithUser`: a successful `updateProfile` changes the backend's user object in place; the model keeps the session's user unchanged, since the provider itself stores nothing new.
- React hook semantics: batching of state updates, the stale `errors` value spread into a field error, `useCallback`/`useMemo` dependencies, and the lifetime of the auth-state subscription.
- Concurrency: interleaving of the auth-state notification with operation results, and a hung backend call that leaves loading set.

=== FILE: account_modal.dfy ===
/** The account dialog: which submit buttons are enabled, which inputs each
    screen shows, and what a submission does to the dialog's local form state.
    The backend calls of the dialog are commented out in the component, so a
    submission here performs no session operation: it either records a field
    error and keeps the form, or clears the form and closes the dialog. */
module AccountModal {
  import opened Wrappers
  import JsStrings
  import AuthProvider

  /** The signed-in user, read from the session provider; the dialog looks
      only at its email and display name. */
  type User = AuthProvider.User

  /** The three field-error messages the dispatcher records. The form footer
      renders the email and password ones (see `RenderedErrors`). */
  datatype FieldErrors = FieldErrors(displayName: string, email: string, password: string)

  /** The dialog's local state. `deleteAccount` holds the typed confirmation phrase. */
  datatype Form = Form(
    deleteAccount: string,
    newDisplayName: string,
    email: string,
    password: string,
    showPassword: bool,
    errors: FieldErrors)

  /** The form after a submission, and whether the dialog asked to be closed. */
  datatype Submission = Submission(form: Form, closed: bool)

  /** The text inputs a screen can render. */
  datatype Input = ConfirmationInput | DisplayNameInput | EmailInput | PasswordInput

  const NoErrors := FieldErrors("", "", "")
  const DeleteConfirmation := "delete-my-account"
  const SameEmailError := "Email is the same as current email"
  const SameDisplayNameError := "Display name is the same as current display name"
  const EmailMismatchError := "Email is not the same as current email"

  /** The screens the dialog renders a header and inputs for. */
  const KnownScreens: set<string> := {"email", "password", "delete", "displayName", "verification"}

  /** The screens the submit dispatcher has a case for, as written. */
  const DispatchedScreens: set<string> := {"email", "password", "deleteAccount", "displayName", "verification"}

  /** `user?.email`: absent when nobody is signed in or the user has no email. */
  function CurrentEmail(user: Option<User>): Option<string> {
    if user.Some? then user.value.email else None
  }

  /** `user?.displayName`. */
  function CurrentDisplayName(user: Option<User>): Option<string> {
    if user.Some? then user.value.displayName else None
  }

  /** JavaScript truthiness of an optional string: present and non-empty. */
  predicate Truthy(v: Option<string>) {
    v.Some? && v.value != ""
  }

  /** A string with at least one character `trim` keeps. */
  predicate HasContent(s: string) {
    exists i :: 0 <= i < |s| && !JsStrings.IsTrimmable(s[i])
  }

  /** Whether the submit button is enabled on `screen`. */
  function IsButtonEnabled(screen: string, f: Form, user: Option<User>): (enabled: bool)
    ensures screen == "email" ==> (enabled <==> HasContent(f.email) && HasContent(f.password))
    ensures screen == "password" ==>
      (enabled <==> user.Some? && user.value.email.Some? && user.value.email.value == f.email)
    ensures screen == "delete" ==>
      (enabled <==> f.deleteAccount == DeleteConfirmation && HasContent(f.password))
    ensures screen == "displayName" ==>
      (enabled <==> HasContent(f.newDisplayName) && JsStrings.Utf16Length(f.newDisplayName) > 1)
    ensures screen == "verification" ==> (enabled <==> HasContent(f.email))
    ensures screen !in KnownScreens ==> !enabled
  {
    if screen == "email" then
      JsStrings.Trim(f.email) != "" && JsStrings.Trim(f.password) != ""
    else if screen == "password" then
      CurrentEmail(user) == Some(f.email)
    else if screen == "delete" then
      f.deleteAccount == DeleteConfirmation && JsStrings.Trim(f.password) != ""
    else if screen == "displayName" then
      JsStrings.Trim(f.newDisplayName) != "" && JsStrings.Utf16Length(f.newDisplayName) > 1
    else if screen == "verification" then
      JsStrings.Trim(f.email) != ""
    else
      false
  }

  /** Every text input empty, the password hidden and no field error shown. */
  predicate IsCleared(f: Form) {
    && f.deleteAccount == "" && f.newDisplayName == "" && f.email == "" && f.password == ""
    && !f.showPassword
    && f.errors.displayName == "" && f.errors.email == "" && f.errors.password == ""
  }

  /** Two forms that hold the same user input (they may differ in errors). */
  predicate SameInputs(f: Form, g: Form) {
    && f.deleteAccount == g.deleteAccount && f.newDisplayName == g.newDisplayName
    && f.email == g.email && f.password == g.password && f.showPassword == g.showPassword
  }

  /** The form state `clearValues` leaves behind (the component's `onClose`
      call is recorded by `Submission.closed`). On a cleared form only the
      password-reset screen can have its button enabled, and only for a user
      whose email is the empty string. */
  function ClearValues(): (r: Form)
    ensures IsCleared(r)
    ensures forall screen, user :: IsButtonEnabled(screen, r, user) <==>
      screen == "password" && CurrentEmail(user) == Some("")
  {
    Form("", "", "", "", false, NoErrors)
  }

  /** The submit dispatcher with the delete case matched on `deleteCase`.
      Every submission first clears the field errors; a same-as-current or
      mismatch check then either records one field error and keeps the
      inputs, or the form is cleared and the dialog closed. */
  function Dispatch(deleteCase: string, screen: string, f: Form, user: Option<User>): (o: Submission)
    requires deleteCase !in {"email", "password", "displayName", "verification"}
    ensures o.closed ==> IsCleared(o.form)
    ensures !o.closed ==> SameInputs(o.form, f)
  {
    var kept := f.(errors := NoErrors);
    if screen == "email" then
      if CurrentEmail(user) == Some(f.email) then
        Submission(kept.(errors := NoErrors.(email := SameEmailError)), false)
      else
        Submission(ClearValues(), true)
    else if screen == "password" then
      if Truthy(CurrentEmail(user)) then Submission(ClearValues(), true) else Submission(kept, false)
    else if screen == deleteCase then
      Submission(ClearValues(), true)
    else if screen == "displayName" then
      if CurrentDisplayName(user) == Some(f.newDisplayName) then
        Submission(kept.(errors := NoErrors.(displayName := SameDisplayNameError)), false)
      else
        Submission(ClearValues(), true)
    else if screen == "verification" then
      if CurrentEmail(user) != Some(f.email) then
        Submission(kept.(errors := NoErrors.(email := EmailMismatchError)), false)
      else
        Submission(ClearValues(), true)
    else
      Submission(kept, false)
  }

  /** `handleSubmit` as written: the account-deletion case is keyed on
      `"deleteAccount"`, a screen value for which the button is never enabled. */
  function HandleSubmit(screen: string, f: Form, user: Option<User>): (o: Submission)
    ensures o.closed ==> IsCleared(o.form)
    ensures !o.closed ==> SameInputs(o.form, f)
    ensures screen == "email" ==>
      && (o.closed <==> !(user.Some? && user.value.email == Some(f.email)))
      && (!o.closed ==> o.form.errors == FieldErrors("", SameEmailError, ""))
    ensures screen == "password" ==>
      && (o.closed <==> user.Some? && user.value.email.Some? && user.value.email.value != "")
      && (!o.closed ==> o.form == f.(errors := NoErrors))
    ensures screen == "deleteAccount" ==> o.closed
    ensures screen == "displayName" ==>
      && (o.closed <==> !(user.Some? && user.value.displayName == Some(f.newDisplayName)))
      && (!o.closed ==> o.form.errors == FieldErrors(SameDisplayNameError, "", ""))
    ensures screen == "verification" ==>
      && (o.closed <==> user.Some? && user.value.email == Some(f.email))
      && (!o.closed ==> o.form.errors == FieldErrors("", EmailMismatchError, ""))
    ensures screen !in DispatchedScreens ==> o == Submission(f.(errors := NoErrors), false)
  {
    Dispatch("deleteAccount", screen, f, user)
  }

  /** `handleSubmit` with the deletion case keyed on `"delete"`, the screen
      value the enablement rule and the inputs use. */
  function HandleSubmitCorrected(screen: string, f: Form, user: Option<User>): (o: Submission)
    ensures screen == "delete" ==> o.closed && IsCleared(o.form)
    ensures screen == "deleteAccount" ==> o == Submission(f.(errors := NoErrors), false)
    ensures screen != "delete" && screen != "deleteAccount" ==> o == HandleSubmit(screen, f, user)
  {
    Dispatch("delete", screen, f, user)
  }

  /** Pressing the submit button: a disabled button does nothing, an enabled
      one runs the (corrected) dispatcher. */
  function SubmitButton(screen: string, f: Form, user: Option<User>): (o: Submission)
    ensures !IsButtonEnabled(screen, f, user) ==> o == Submission(f, false)
    ensures screen !in KnownScreens ==> o == Submission(f, false)
    ensures IsButtonEnabled(screen, f, user) ==> o == HandleSubmitCorrected(screen, f, user)
  {
    if IsButtonEnabled(screen, f, user) then HandleSubmitCorrected(screen, f, user)
    else Submission(f, false)
  }

  /** The password input is rendered on every screen except the
      display-name, verification and password-reset ones. */
  predicate ShowsPasswordField(screen: string) {
    screen != "displayName" && screen != "verification" && screen != "password"
  }

  /** The field errors the form footer renders, in order: the email error,
      then the password error, each only when non-empty. The display-name
      error is not among them. */
  function RenderedErrors(e: FieldErrors): (shown: seq<string>)
    ensures forall m :: m in shown <==> m != "" && (m == e.email || m == e.password)
    ensures shown == [] <==> e.email == "" && e.password == ""
    ensures |shown| <= 2
  {
    (if e.email != "" then [e.email] else []) + (if e.password != "" then [e.password] else [])
  }

  /** The footer with the display-name error rendered ahead of the other two,
      so that every recorded field error is shown. */
  function RenderedErrorsCorrected(e: FieldErrors): (shown: seq<string>)
    ensures forall m :: m in shown <==> m != "" && (m == e.displayName || m == e.email || m == e.password)
    ensures shown == [] <==> e == NoErrors
    ensures |shown| <= 3
  {
    (if e.displayName != "" then [e.displayName] else []) + RenderedErrors(e)
  }

  /** The inputs rendered on `screen`. */
  function VisibleInputs(screen: string): (ins: set<Input>)
    ensures PasswordInput in ins <==> ShowsPasswordField(screen)
    ensures EmailInput in ins <==> screen in {"verification", "email", "password"}
    ensures ConfirmationInput in ins <==> screen == "delete"
    ensures DisplayNameInput in ins <==> screen == "displayName"
  {
    (if screen in {"verification", "email", "password"} then {EmailInput} else {})
    + (if screen == "delete" then {ConfirmationInput} else {})
    + (if screen == "displayName" then {DisplayNameInput} else {})
    + (if ShowsPasswordField(screen) then {PasswordInput} else {})
  }

  /** `f` and `g` hold the same text in every input of `ins`. */
  predicate AgreeOn(f: Form, g: Form, ins: set<Input>) {
    && (ConfirmationInput in ins ==> f.deleteAccount == g.deleteAccount)
    && (DisplayNameInput in ins ==> f.newDisplayName == g.newDisplayName)
    && (EmailInput in ins ==> f.email == g.email)
    && (PasswordInput in ins ==> f.password == g.password)
  }

  // ---------------------------------------------------------------------
  // Properties

  /** The password input appears exactly on the e-mail change and delete
      screens and on screens the dialog does not know. */
  lemma PasswordFieldScreens(screen: string)
    ensures ShowsPasswordField(screen) <==>
      screen == "email" || screen == "delete" || screen !in KnownScreens
  {
  }

  /** The enablement rule reads only inputs the screen actually renders, so a
      user can always see everything that decides the button. */
  lemma EnablementReadsVisibleInputs(screen: string, f: Form, g: Form, user: Option<User>)
    requires AgreeOn(f, g, VisibleInputs(screen))
    ensures IsButtonEnabled(screen, f, user) == IsButtonEnabled(screen, g, user)
  {
  }

  /** A display name of one UTF-16 code unit never enables submit; two
      letters do, and so does one character that needs a surrogate pair. */
  lemma DisplayNameLength(f: Form, user: Option<User>)
    ensures JsStrings.Utf16Length(f.newDisplayName) == 1 ==> !IsButtonEnabled("displayName", f, user)
    ensures f.newDisplayName == "AB" ==> IsButtonEnabled("displayName", f, user)
    ensures f.newDisplayName == "\U{1F600}" ==> IsButtonEnabled("displayName", f, user)
  {
  }

  /** With nobody signed in the password-reset button stays disabled. */
  lemma PasswordResetNeedsUser(f: Form)
    ensures !IsButtonEnabled("password", f, None)
  {
  }

  /** No screen value both enables the button and reaches the deletion case of
      the dispatcher as written. */
  lemma NoScreenEnablesDeletion(screen: string, f: Form, user: Option<User>)
    requires IsButtonEnabled(screen, f, user)
    ensures screen != "deleteAccount"
  {
  }

  /** As written, an enabled delete screen submits into the default case: the
      inputs stay, the errors are cleared and the dialog stays open. */
  lemma EnabledDeleteIsIgnored(f: Form, user: Option<User>)
    requires IsButtonEnabled("delete", f, user)
    ensures HandleSubmit("delete", f, user) == Submission(f.(errors := NoErrors), false)
  {
  }

  /** A concrete witness of the mismatch: a filled-in delete screen whose
      submission leaves the typed confirmation in place. */
  lemma DeleteMismatchWitness()
    ensures var f := Form(DeleteConfirmation, "", "", "pw", false, NoErrors);
      IsButtonEnabled("delete", f, None) && !HandleSubmit("delete", f, None).closed
  {
  }

  /** Corrected: an enabled delete screen clears the form and closes. */
  lemma EnabledDeleteCloses(f: Form, user: Option<User>)
    requires IsButtonEnabled("delete", f, user)
    ensures SubmitButton("delete", f, user).closed
    ensures IsCleared(SubmitButton("delete", f, user).form)
  {
  }

  /** With the corrected dispatcher, pressing an enabled button visibly
      responds (the dialog closes or the footer shows an error) except in two
      cases. The first is the password-reset screen for a user whose email is
      the empty string: strict equality enables the button, but the
      dispatcher's truthiness test then skips the reset. The second is a
      display name equal to the current one: its error is recorded but never
      rendered. */
  lemma EnabledSubmitResponds(screen: string, f: Form, user: Option<User>)
    requires IsButtonEnabled(screen, f, user)
    ensures var o := SubmitButton(screen, f, user);
      (o.closed || RenderedErrors(o.form.errors) != []) <==>
        && !(screen == "password" && CurrentEmail(user) == Some(""))
        && !(screen == "displayName" && CurrentDisplayName(user) == Some(f.newDisplayName))
  {
  }

  /** A concrete silent submission: the signed-in user's display name typed
      again enables the button, and the press leaves the dialog open with no
      error in the footer. */
  lemma SilentDisplayNameWitness()
    ensures var f := Form("", "Bob", "", "", false, NoErrors);
      var user := Some(AuthProvider.User("u1", None, Some("Bob")));
      var o := SubmitButton("displayName", f, user);
      && IsButtonEnabled("displayName", f, user)
      && !o.closed && o.form.errors.displayName == SameDisplayNameError
      && RenderedErrors(o.form.errors) == []
  {
  }

  /** With the display-name error rendered as well, the same-name case
      responds too, and the empty-email password reset is the only press of an
      enabled button that shows nothing. */
  lemma EnabledSubmitRespondsCorrected(screen: string, f: Form, user: Option<User>)
    requires IsButtonEnabled(screen, f, user)
    ensures var o := SubmitButton(screen, f, user);
      (o.closed || RenderedErrorsCorrected(o.form.errors) != []) <==>
        !(screen == "password" && CurrentEmail(user) == Some(""))
  {
  }
}

=== FILE: archive.dfy ===
/** The archive page: the archived, non-trashed notes followed by the
    archived, non-trashed projects, or a placeholder when there are none. */
module Archive {

  /** A note or a project; only the fields the page reads are kept. */
  datatype Idea =
    | Note(id: string, isArchived: bool, isTrash: bool)
    | Project(id: string, isArchived: bool, isTrash: bool)

  type Note = i: Idea | i.Note? witness Note("", false, false)
  type Project = i: Idea | i.Project? witness Project("", false, false)

  /** What the page renders: the placeholder heading, and the listed ideas. */
  datatype Page = Page(showsEmptyMessage: bool, listed: seq<Idea>)

  /** The filter predicate of the page. */
  predicate InArchive(i: Idea) {
    i.isArchived && !i.isTrash
  }

  /** `a` is `b` with some elements left out, the rest in their order. */
  predicate IsSubsequence(a: seq<Idea>, b: seq<Idea>)
    decreases |b|
  {
    if b == [] then a == []
    else (a != [] && a[0] == b[0] && IsSubsequence(a[1..], b[1..])) || IsSubsequence(a, b[1..])
  }

  /** The number of ideas of `xs` the page keeps. */
  function CountInArchive(xs: seq<Idea>): nat {
    if xs == [] then 0 else (if InArchive(xs[0]) then 1 else 0) + CountInArchive(xs[1..])
  }

  /** `xs.filter(x => x.isArchived && !x.isTrash)`: exactly the archived,
      non-trashed ideas, each as often as in `xs`. */
  function Keep(xs: seq<Idea>): (r: seq<Idea>)
    ensures forall i :: 0 <= i < |r| ==> InArchive(r[i])
    ensures forall x :: multiset(r)[x] == if InArchive(x) then multiset(xs)[x] else 0
    ensures |r| <= |xs|
  {
    if xs == [] then []
    else
      assert xs == [xs[0]] + xs[1..];
      var rest := Keep(xs[1..]);
      if InArchive(xs[0]) then [xs[0]] + rest else rest
  }

  /** `archiveIdeas`: the kept notes, then the kept projects. */
  function ArchiveIdeas(notes: seq<Note>, projects: seq<Project>): (r: seq<Idea>)
    ensures forall i :: 0 <= i < |r| ==> InArchive(r[i])
    ensures forall x ::
              multiset(r)[x] == if InArchive(x) then multiset(notes)[x] + multiset(projects)[x] else 0
    ensures forall i, j :: 0 <= i < j < |r| && r[j].Note? ==> r[i].Note?
  {
    var kn := Keep(notes);
    var kp := Keep(projects);
    KeepDrawsFrom(notes);
    KeepDrawsFrom(projects);
    kn + kp
  }

  /** The page: the placeholder exactly when nothing is archived, the list
      otherwise, never both. */
  function ArchivePage(notes: seq<Note>, projects: seq<Project>): (p: Page)
    ensures p.showsEmptyMessage <==>
      (forall i :: 0 <= i < |notes| ==> !InArchive(notes[i]))
      && (forall j :: 0 <= j < |projects| ==> !InArchive(projects[j]))
    ensures p.showsEmptyMessage ==> p.listed == []
    ensures !p.showsEmptyMessage ==> p.listed != [] && p.listed == ArchiveIdeas(notes, projects)
  {
    var ideas := ArchiveIdeas(notes, projects);
    ArchiveEmptyIff(notes, projects);
    Page(|ideas| == 0, if |ideas| > 0 then ideas else [])
  }

  // ---------------------------------------------------------------------
  // Properties

  /** Every kept idea is an idea of the source. */
  lemma KeepDrawsFrom(xs: seq<Idea>)
    ensures forall i :: 0 <= i < |Keep(xs)| ==> Keep(xs)[i] in xs
  {
    forall i | 0 <= i < |Keep(xs)| ensures Keep(xs)[i] in xs {
      assert multiset(Keep(xs))[Keep(xs)[i]] > 0;
    }
  }

  /** The archive is empty exactly when no note and no project qualifies. */
  lemma ArchiveEmptyIff(notes: seq<Note>, projects: seq<Project>)
    ensures ArchiveIdeas(notes, projects) == [] <==>
      (forall i :: 0 <= i < |notes| ==> !InArchive(notes[i]))
      && (forall j :: 0 <= j < |projects| ==> !InArchive(projects[j]))
  {
    var ideas := ArchiveIdeas(notes, projects);
    if |ideas| > 0 {
      assert multiset(ideas)[ideas[0]] > 0;
    }
    forall i | 0 <= i < |notes| && InArchive(notes[i]) ensures |ideas| > 0 {
      assert multiset(notes)[notes[i]] > 0;
    }
    forall j | 0 <= j < |projects| && InArchive(projects[j]) ensures |ideas| > 0 {
      assert multiset(projects)[projects[j]] > 0;
    }
  }

  /** The filter keeps the source order. */
  lemma {:induction false} KeepIsSubsequence(xs: seq<Idea>)
    ensures IsSubsequence(Keep(xs), xs)
  {
    if xs != [] {
      KeepIsSubsequence(xs[1..]);
      if InArchive(xs[0]) {
        assert ([xs[0]] + Keep(xs[1..]))[1..] == Keep(xs[1..]);
      }
    }
  }

  /** The filter keeps exactly as many ideas as the independent count says. */
  lemma {:induction false} KeepLength(xs: seq<Idea>)
    ensures |Keep(xs)| == CountInArchive(xs)
  {
    if xs != [] {
      KeepLength(xs[1..]);
    }
  }

  /** A sequence is left alone by the filter exactly when all of it qualifies. */
  lemma {:induction false} KeepFixedPoint(xs: seq<Idea>)
    ensures Keep(xs) == xs <==> forall i :: 0 <= i < |xs| ==> InArchive(xs[i])
  {
    if xs != [] {
      KeepFixedPoint(xs[1..]);
      if !InArchive(xs[0]) {
        assert |Keep(xs)| <= |xs[1..]| < |xs|;
      }
    }
  }

  /** Filtering the archive again by the same predicate changes nothing. */
  lemma RefilterIsIdentity(notes: seq<Note>, projects: seq<Project>)
    ensures Keep(ArchiveIdeas(notes, projects)) == ArchiveIdeas(notes, projects)
  {
    KeepFixedPoint(ArchiveIdeas(notes, projects));
  }

  /** The archive splits into a prefix of notes in their source order and a
      suffix of projects in theirs. */
  lemma ArchiveKeepsSourceOrder(notes: seq<Note>, projects: seq<Project>)
    ensures var r := ArchiveIdeas(notes, projects);
      exists k :: 0 <= k <= |r|
        && (forall i :: 0 <= i < |r| ==> (r[i].Note? <==> i < k))
        && IsSubsequence(r[..k], notes) && IsSubsequence(r[k..], projects)
  {
    var r := ArchiveIdeas(notes, projects);
    var k := |Keep(notes)|;
    assert r[..k] == Keep(notes) && r[k..] == Keep(projects);
    KeepIsSubsequence(notes);
    KeepIsSubsequence(projects);
    forall i | 0 <= i < |r| ensures r[i].Note? <==> i < k {
      if i < k {
        assert multiset(Keep(notes))[r[i]] > 0;
      } else {
        assert r[i] == Keep(projects)[i - k];
        assert multiset(Keep(projects))[r[i]] > 0;
      }
    }
  }

  /** The archive holds as many ideas as there are qualifying notes and
      projects, so never more than both collections together. */
  lemma ArchiveLength(notes: seq<Note>, projects: seq<Project>)
    ensures |ArchiveIdeas(notes, projects)| == CountInArchive(notes) + CountInArchive(projects)
    ensures |ArchiveIdeas(notes, projects)| <= |notes| + |projects|
  {
    KeepLength(notes);
    KeepLength(projects);
  }

  /** The worked example: one archived note, one trashed archived note, one
      live project; the page lists exactly the first note. */
  lemma ArchiveExample()
    ensures var n1 := Note("n1", true, false);
      var n2 := Note("n2", true, true);
      var p1 := Project("p1", false, false);
      ArchivePage([n1, n2], [p1]) == Page(false, [n1])
  {
  }
}

=== FILE: auth_provider.dfy ===
/** The session provider: the state `{authError, isAuthLoading, user}` and
    every operation on it as a transition. Each call into the identity
    backend is an input reply (`Reply`), so the model states what the
    provider does with each outcome, not what the backend does. */
module AuthProvider {
  import opened Wrappers

  /** The identity backend's user record, as far as the provider sees it. */
  datatype User = User(uid: string, email: Option<string>, displayName: Option<string>)

  /** What a backend call can throw: an error carrying a backend code, or any
      other value. `text` is what `'' + error` produces for it. */
  datatype Failure = Coded(code: string, text: string) | Other(text: string)

  /** The settled outcome of one awaited backend call. */
  datatype Reply<+T> = Ok(value: T) | Err(failure: Failure)

  /** The provider's state. */
  datatype Session = Session(authError: string, isAuthLoading: bool, user: Option<User>)

  /** The state after an operation, and what the returned promise rejects
      with (`None` when it resolves). */
  datatype Step = Step(session: Session, raised: Option<Failure>)

  /** One operation of the provider, together with the replies of the
      backend calls it awaits, in order. The operations' string arguments
      reach only the backend, so they are folded into those replies. */
  datatype Op =
    | AuthStateChanged(current: Option<User>)
    | CreateUserAccount(created: Reply<User>, verification: Reply<()>)
    | DeleteUserAccount(reauth: Reply<()>, deletion: Reply<()>)
    | LogIn(signIn: Reply<User>)
    | LogInWithGoogle(popup: Reply<User>)
    | LogOut(signOut: Reply<()>)
    | SendPasswordReset(authReady: bool, dispatch: Reply<()>)
    | SendUserVerification(dispatch: Reply<()>)
    | UpdateUserDisplayName(update: Reply<()>)
    | UpdateUserEmail(reauth: Reply<()>, verifyUpdate: Reply<()>)

  /** The state at start-up: nobody signed in, nothing loading, no error. */
  const Initial := Session("", false, None)

  const InvalidCredentialMessage := "Invalid credentials provided"
  const EmailInUseMessage := "Email already in use"
  const InvalidEmailMessage := "Invalid email address"
  const NotAllowedMessage := "Operation not allowed"
  const WeakPasswordMessage := "The password is too weak"
  /** "Access temporarily disabled due to many failed attempts", in two parts
      so that proofs can inspect its leading characters. */
  const TooManyRequestsMessage := "Access temporarily disabled " + "due to many failed attempts"
  const UnknownCodePrefix := "Unknown FirebaseError, error.code: "

  /** The six backend codes with a fixed message. */
  const KnownCodes: set<string> := {
    "auth/invalid-credential", "auth/email-already-in-use", "auth/invalid-email",
    "auth/operation-not-allowed", "auth/weak-password", "auth/too-many-requests"}

  /** The error the provider throws itself when an operation needs a user. */
  const UserNotFound := Other("Error: User not found.")

  /** `'' + error`. */
  function Stringify(e: Failure): string {
    e.text
  }

  /** `handleError`: the message recorded for a failure. Backend codes map to
      a message from which the code can be read back; anything else is
      stringified. */
  function HandleError(e: Failure): (msg: string)
    ensures e.Coded? ==> MessageCode(msg) == Some(e.code)
    ensures e.Other? ==> msg == Stringify(e)
  {
    match e
    case Other(_) => Stringify(e)
    case Coded(code, _) =>
      if code == "auth/invalid-credential" then InvalidCredentialMessage
      else if code == "auth/email-already-in-use" then EmailInUseMessage
      else if code == "auth/invalid-email" then InvalidEmailMessage
      else if code == "auth/operation-not-allowed" then NotAllowedMessage
      else if code == "auth/weak-password" then WeakPasswordMessage
      else if code == "auth/too-many-requests" then TooManyRequestsMessage
      else
        var msg := UnknownCodePrefix + code;
        // No fixed message starts with the prefix's first letter.
        assert msg[0] == 'U';
        assert msg != InvalidCredentialMessage && msg != EmailInUseMessage && msg != InvalidEmailMessage;
        assert msg != NotAllowedMessage && msg != WeakPasswordMessage && msg != TooManyRequestsMessage;
        assert msg[..|UnknownCodePrefix|] == UnknownCodePrefix;
        assert msg[|UnknownCodePrefix|..] == code;
        msg
  }

  /** Reads a backend code back out of a message `HandleError` produced for
      it; `None` for a message no code produces. */
  function MessageCode(msg: string): Option<string> {
    if msg == InvalidCredentialMessage then Some("auth/invalid-credential")
    else if msg == EmailInUseMessage then Some("auth/email-already-in-use")
    else if msg == InvalidEmailMessage then Some("auth/invalid-email")
    else if msg == NotAllowedMessage then Some("auth/operation-not-allowed")
    else if msg == WeakPasswordMessage then Some("auth/weak-password")
    else if msg == TooManyRequestsMessage then Some("auth/too-many-requests")
    else if |UnknownCodePrefix| <= |msg| && msg[..|UnknownCodePrefix|] == UnknownCodePrefix then
      Some(msg[|UnknownCodePrefix|..])
    else None
  }

  /** The sequential composition of two awaited calls: the second runs only
      when the first succeeded. */
  function Then<T, U>(first: Reply<T>, second: Reply<U>): (r: Reply<U>)
    ensures r.Err? <==> first.Err? || second.Err?
    ensures first.Err? ==> r.failure == first.failure
  {
    if first.Err? then Err(first.failure) else second
  }

  /** The `onAuthStateChanged` callback: loading is raised and lowered around
      installing the notified user. */
  function AuthStateChanged(s: Session, current: Option<User>): (s': Session)
    ensures s'.user == current
    ensures !s'.isAuthLoading
    ensures s'.authError == s.authError
  {
    var busy := s.(isAuthLoading := true);
    busy.(user := current).(isAuthLoading := false)
  }

  /** `createUserAccount`: create the account, then send the verification
      email; any failure is mapped into `authError` and swallowed. The user
      is not installed here: the backend's state notification does that. */
  function CreateUserAccount(s: Session, created: Reply<User>, verification: Reply<()>): (t: Step)
    ensures !t.session.isAuthLoading && t.session.user == s.user && t.raised == None
    ensures created.Err? ==> t.session.authError == HandleError(created.failure)
    ensures created.Ok? && verification.Err? ==> t.session.authError == HandleError(verification.failure)
    ensures created.Ok? && verification.Ok? ==> t.session.authError == s.authError
  {
    var outcome := Then(created, verification);
    var s1 := if outcome.Err? then s.(authError := HandleError(outcome.failure)) else s;
    Step(s1.(isAuthLoading := false), None)
  }

  /** `logIn` and `logInWithGoogle`: install the signed-in user, or map the
      failure into `authError` and keep the user; loading ends either way and
      nothing is thrown. */
  function SignIn(s: Session, reply: Reply<User>): (t: Step)
    ensures !t.session.isAuthLoading && t.raised == None
    ensures reply.Ok? ==> t.session.user == Some(reply.value) && t.session.authError == s.authError
    ensures reply.Err? ==> t.session.user == s.user && t.session.authError == HandleError(reply.failure)
  {
    var busy := s.(isAuthLoading := true);
    var done := match reply
      case Ok(u) => busy.(user := Some(u))
      case Err(e) => busy.(authError := HandleError(e));
    Step(done.(isAuthLoading := false), None)
  }

  /** The catch block shared by the operations that record the raw
      stringified error and rethrow it. */
  function RecordAndRethrow(s: Session, e: Failure): (t: Step)
    ensures t.session == s.(authError := Stringify(e)) && t.raised == Some(e)
  {
    Step(s.(authError := Stringify(e)), Some(e))
  }

  /** `deleteUserAccount`: with nobody signed in it does nothing at all;
      otherwise re-authenticate, delete, and drop the user; a failure is
      stringified into `authError` and rethrown. */
  function DeleteUserAccount(s: Session, reauth: Reply<()>, deletion: Reply<()>): (t: Step)
    ensures s.user.None? ==> t == Step(s, None)
    ensures s.user.Some? && reauth.Ok? && deletion.Ok? ==> t == Step(s.(user := None), None)
    ensures s.user.Some? && reauth.Err? ==>
      t == Step(s.(authError := Stringify(reauth.failure)), Some(reauth.failure))
    ensures s.user.Some? && reauth.Ok? && deletion.Err? ==>
      t == Step(s.(authError := Stringify(deletion.failure)), Some(deletion.failure))
    ensures t.raised.Some? ==>
      && s.user.Some? && t.session.user == s.user && t.session.isAuthLoading == s.isAuthLoading
      && t.session.authError == Stringify(t.raised.value)
  {
    if s.user.None? then Step(s, None)
    else
      match Then(reauth, deletion)
      case Ok(_) => Step(s.(user := None), None)
      case Err(e) => RecordAndRethrow(s, e)
  }

  /** `logOut`: drop the user; a failure is recorded unmapped and rethrown. */
  function LogOut(s: Session, signOut: Reply<()>): (t: Step)
    ensures signOut.Ok? ==> t == Step(s.(user := None), None)
    ensures signOut.Err? ==>
      && t.session.user == s.user && t.raised == Some(signOut.failure)
      && t.session.authError == Stringify(signOut.failure)
  {
    match signOut
    case Ok(_) => Step(s.(user := None), None)
    case Err(e) => RecordAndRethrow(s, e)
  }

  /** `sendPasswordReset`: nothing happens while the backend handle is
      absent; otherwise a failure is mapped into `authError` and rethrown. */
  function SendPasswordReset(s: Session, authReady: bool, dispatch: Reply<()>): (t: Step)
    ensures t.session.user == s.user && t.session.isAuthLoading == s.isAuthLoading
    ensures !authReady || dispatch.Ok? ==> t == Step(s, None)
    ensures authReady && dispatch.Err? ==>
      t.raised == Some(dispatch.failure) && t.session.authError == HandleError(dispatch.failure)
  {
    if !authReady then Step(s, None)
    else
      match dispatch
      case Ok(_) => Step(s, None)
      case Err(e) => Step(s.(authError := HandleError(e)), Some(e))
  }

  /** The shape shared by `sendUserVerification`, `updateUserDisplayName`
      and `updateUserEmail`: without a user they throw `User not found.`;
      with one, a backend failure is recorded unmapped and rethrown. Success
      changes nothing the provider holds. */
  function WithUser(s: Session, call: Reply<()>): (t: Step)
    ensures t.session.user == s.user && t.session.isAuthLoading == s.isAuthLoading
    ensures s.user.None? ==> t.raised == Some(UserNotFound) && t.session.authError == "Error: User not found."
    ensures s.user.Some? && call.Ok? ==> t == Step(s, None)
    ensures s.user.Some? && call.Err? ==>
      t.raised == Some(call.failure) && t.session.authError == Stringify(call.failure)
  {
    if s.user.None? then RecordAndRethrow(s, UserNotFound)
    else
      match call
      case Ok(_) => Step(s, None)
      case Err(e) => RecordAndRethrow(s, e)
  }

  /** Whether an operation raises and lowers `isAuthLoading`. */
  predicate TogglesLoading(op: Op) {
    op.AuthStateChanged? || op.CreateUserAccount? || op.LogIn? || op.LogInWithGoogle?
  }

  /** Whether the operation throws `User not found.` when nobody is signed in. */
  predicate NeedsUser(op: Op) {
    op.SendUserVerification? || op.UpdateUserDisplayName? || op.UpdateUserEmail?
  }

  /** Runs one operation. */
  function Apply(s: Session, op: Op): Step {
    match op
    case AuthStateChanged(current) => Step(AuthStateChanged(s, current), None)
    case CreateUserAccount(created, verification) => CreateUserAccount(s, created, verification)
    case DeleteUserAccount(reauth, deletion) => DeleteUserAccount(s, reauth, deletion)
    case LogIn(signIn) => SignIn(s, signIn)
    case LogInWithGoogle(popup) => SignIn(s, popup)
    case LogOut(signOut) => LogOut(s, signOut)
    case SendPasswordReset(authReady, dispatch) => SendPasswordReset(s, authReady, dispatch)
    case SendUserVerification(dispatch) => WithUser(s, dispatch)
    case UpdateUserDisplayName(update) => WithUser(s, update)
    case UpdateUserEmail(reauth, verifyUpdate) => WithUser(s, Then(reauth, verifyUpdate))
  }

  /** The state observable while the operation's backend calls are still
      outstanding. */
  function Pending(s: Session, op: Op): (p: Session)
    ensures p.user == s.user && p.authError == s.authError
    ensures p.isAuthLoading <==> s.isAuthLoading || (TogglesLoading(op) && !op.AuthStateChanged?)
  {
    if op.CreateUserAccount? || op.LogIn? || op.LogInWithGoogle? then s.(isAuthLoading := true) else s
  }

  /** The failures carried by the operation's backend replies. */
  function Failures(op: Op): set<Failure> {
    match op
    case AuthStateChanged(_) => {}
    case CreateUserAccount(created, verification) => FailureOf(created) + FailureOf(verification)
    case DeleteUserAccount(reauth, deletion) => FailureOf(reauth) + FailureOf(deletion)
    case LogIn(signIn) => FailureOf(signIn)
    case LogInWithGoogle(popup) => FailureOf(popup)
    case LogOut(signOut) => FailureOf(signOut)
    case SendPasswordReset(_, dispatch) => FailureOf(dispatch)
    case SendUserVerification(dispatch) => FailureOf(dispatch)
    case UpdateUserDisplayName(update) => FailureOf(update)
    case UpdateUserEmail(reauth, verifyUpdate) => FailureOf(reauth) + FailureOf(verifyUpdate)
  }

  function FailureOf<T>(r: Reply<T>): set<Failure> {
    if r.Err? then {r.failure} else {}
  }

  /** Whether the operation records a failure through `handleError` rather
      than as its raw text. */
  predicate MapsErrors(op: Op) {
    op.CreateUserAccount? || op.LogIn? || op.LogInWithGoogle? || op.SendPasswordReset?
  }

  /** Every message an operation could write into `authError`: the mapped
      message of a failure for the operations that map, its raw text (and
      `User not found.`) for the others. */
  function Reportable(op: Op): set<string> {
    if MapsErrors(op) then
      set e | e in Failures(op) :: HandleError(e)
    else
      (set e | e in Failures(op) :: Stringify(e))
      + (if NeedsUser(op) then {Stringify(UserNotFound)} else {})
  }

  /** A run in which no backend call fails and no user-requiring operation
      is issued while nobody is signed in at that point of the run. */
  predicate CleanRun(s: Session, ops: seq<Op>)
    decreases |ops|
  {
    ops == [] ||
      (&& Failures(ops[0]) == {}
       && !(NeedsUser(ops[0]) && s.user.None?)
       && CleanRun(Apply(s, ops[0]).session, ops[1..]))
  }

  /** Runs a sequence of operations from `s`. */
  function Run(s: Session, ops: seq<Op>): Session
    decreases |ops|
  {
    if ops == [] then s else Run(Apply(s, ops[0]).session, ops[1..])
  }

  // ---------------------------------------------------------------------
  // Properties

  /** Each of the six known codes has its fixed message. */
  lemma KnownCodeMessages(text: string)
    ensures HandleError(Coded("auth/invalid-credential", text)) == InvalidCredentialMessage
    ensures HandleError(Coded("auth/email-already-in-use", text)) == EmailInUseMessage
    ensures HandleError(Coded("auth/invalid-email", text)) == InvalidEmailMessage
    ensures HandleError(Coded("auth/operation-not-allowed", text)) == NotAllowedMessage
    ensures HandleError(Coded("auth/weak-password", text)) == WeakPasswordMessage
    ensures HandleError(Coded("auth/too-many-requests", text)) == TooManyRequestsMessage
  {
  }

  /** An unknown code is reported behind a fixed prefix, so the code is the
      message's suffix. */
  lemma UnknownCodeMessage(code: string, text: string)
    requires code !in KnownCodes
    ensures HandleError(Coded(code, text)) == UnknownCodePrefix + code
  {
  }

  /** Distinct backend codes give distinct messages, whatever the text. */
  lemma HandleErrorSeparatesCodes(c1: string, t1: string, c2: string, t2: string)
    requires c1 != c2
    ensures HandleError(Coded(c1, t1)) != HandleError(Coded(c2, t2))
  {
  }

  /** A message from a backend code is never empty. */
  lemma CodedMessageNonEmpty(e: Failure)
    requires e.Coded?
    ensures HandleError(e) != ""
  {
  }

  /** Only the callback, account creation and the two sign-ins touch
      `isAuthLoading`, and they always leave it false. */
  lemma LoadingFrame(s: Session, op: Op)
    ensures TogglesLoading(op) ==> !Apply(s, op).session.isAuthLoading
    ensures !TogglesLoading(op) ==> Apply(s, op).session.isAuthLoading == s.isAuthLoading
  {
  }

  /** The user changes only through the callback, a successful sign-in, a
      successful sign-out or a successful deletion; the last two only to
      nobody. */
  lemma UserFrame(s: Session, op: Op)
    ensures var u := Apply(s, op).session.user;
      u != s.user ==>
        || op.AuthStateChanged?
        || ((op.LogIn? || op.LogInWithGoogle?) && Failures(op) == {})
        || ((op.LogOut? || op.DeleteUserAccount?) && Failures(op) == {} && u == None)
  {
  }

  /** A rejected operation leaves the user and the loading flag as they were
      and has recorded the error it rethrows. */
  lemma RaisedKeepsState(s: Session, op: Op)
    ensures var t := Apply(s, op);
      t.raised.Some? ==>
        && t.session.user == s.user && t.session.isAuthLoading == s.isAuthLoading
        && (t.session.authError == Stringify(t.raised.value) || t.session.authError == HandleError(t.raised.value))
  {
  }

  /** `authError` is written only on failure paths, and only with a message
      derived from a failure the operation met. */
  lemma ErrorOnlyFromFailures(s: Session, op: Op)
    ensures var e := Apply(s, op).session.authError;
      e == s.authError || e in Reportable(op)
    ensures Failures(op) == {} && !(NeedsUser(op) && s.user.None?) ==>
      Apply(s, op).session.authError == s.authError
  {
  }

  /** Every operation that shows loading while outstanding clears it when it
      completes, and how it completes does not depend on the flag it raised. */
  lemma PendingSettles(s: Session, op: Op)
    ensures Apply(Pending(s, op), op) == Apply(s, op)
    ensures !s.isAuthLoading && Pending(s, op).isAuthLoading ==> !Apply(s, op).session.isAuthLoading
  {
  }

  /** Without failures, no run of operations ever clears or changes
      `authError`. */
  lemma {:induction false} CleanRunKeepsError(s: Session, ops: seq<Op>)
    requires CleanRun(s, ops)
    ensures Run(s, ops).authError == s.authError
    decreases |ops|
  {
    if ops != [] {
      ErrorOnlyFromFailures(s, ops[0]);
      CleanRunKeepsError(Apply(s, ops[0]).session, ops[1..]);
    }
  }

  /** Starting idle, the session is idle after every run of completed
      operations. */
  lemma {:induction false} RunStaysIdle(s: Session, ops: seq<Op>)
    requires !s.isAuthLoading
    ensures !Run(s, ops).isAuthLoading
    decreases |ops|
  {
    if ops != [] {
      LoadingFrame(s, ops[0]);
      RunStaysIdle(Apply(s, ops[0]).session, ops[1..]);
    }
  }

  /** When every message a run could report is non-empty, an error once set is
      never cleared again by the run. */
  lemma {:induction false} ErrorNeverCleared(s: Session, ops: seq<Op>)
    requires s.authError != ""
    requires forall i, m :: 0 <= i < |ops| && m in Reportable(ops[i]) ==> m != ""
    ensures Run(s, ops).authError != ""
    decreases |ops|
  {
    if ops != [] {
      ErrorOnlyFromFailures(s, ops[0]);
      ErrorNeverCleared(Apply(s, ops[0]).session, ops[1..]);
    }
  }

  /** From start-up, every run of completed operations ends idle, and a run
      without failures (and without user-requiring operations while nobody
      is signed in) never shows an error. */
  lemma RunFromInitial(ops: seq<Op>)
    ensures !Run(Initial, ops).isAuthLoading
    ensures CleanRun(Initial, ops) ==> Run(Initial, ops).authError == ""
  {
    RunStaysIdle(Initial, ops);
    if CleanRun(Initial, ops) {
      CleanRunKeepsError(Initial, ops);
    }
  }

  /** A sign-in rejected with a known code whose own text is empty still
      records a non-empty message, so such a run keeps an error set. */
  lemma MappedMessageKeepsError(s: Session)
    requires s.authError != ""
    ensures Run(s, [LogIn(Err(Coded("auth/invalid-credential", "")))]).authError != ""
  {
    var e := Coded("auth/invalid-credential", "");
    var ops := [LogIn(Err(e))];
    assert Failures(ops[0]) == {e};
    assert HandleError(e) == InvalidCredentialMessage;
    assert forall m :: m in Reportable(ops[0]) ==> m == InvalidCredentialMessage;
    ErrorNeverCleared(s, ops);
  }
}

=== FILE: js_strings.dfy ===
/** The part of ECMAScript string handling the account dialog relies on:
    `String.prototype.trim`, which strips leading and trailing white space
    and line terminators. */
module JsStrings {

  /** The ECMAScript WhiteSpace and LineTerminator code points (the Unicode
      space separators, tab, vertical tab, form feed, no-break space, the byte
      order mark, line feed, carriage return, line and paragraph separator). */
  predicate IsTrimmable(c: char) {
    || c == '\t' || c == '\n' || c == '\U{000B}' || c == '\U{000C}' || c == '\r'
    || c == ' ' || c == '\U{00A0}' || c == '\U{1680}'
    || ('\U{2000}' <= c <= '\U{200A}')
    || c == '\U{2028}' || c == '\U{2029}' || c == '\U{202F}' || c == '\U{205F}'
    || c == '\U{3000}' || c == '\U{FEFF}'
  }

  /** True when every character of `s` is one that `trim` removes. */
  predicate IsBlank(s: string) {
    forall i :: 0 <= i < |s| ==> IsTrimmable(s[i])
  }

  /** `s` with its leading trimmable characters removed. */
  function TrimStart(s: string): (r: string)
    ensures |r| <= |s| && r == s[|s| - |r|..]
    ensures forall i :: 0 <= i < |s| - |r| ==> IsTrimmable(s[i])
    ensures r == [] || !IsTrimmable(r[0])
    decreases |s|
  {
    if |s| > 0 && IsTrimmable(s[0]) then TrimStart(s[1..]) else s
  }

  /** `s` with its trailing trimmable characters removed. */
  function TrimEnd(s: string): (r: string)
    ensures |r| <= |s| && r == s[..|r|]
    ensures forall i :: |r| <= i < |s| ==> IsTrimmable(s[i])
    ensures r == [] || !IsTrimmable(r[|r| - 1])
    decreases |s|
  {
    if |s| > 0 && IsTrimmable(s[|s| - 1]) then TrimEnd(s[..|s| - 1]) else s
  }

  /** `s.trim()`: the result is empty exactly when `s` is blank, and otherwise
      neither starts nor ends with a trimmable character. */
  function Trim(s: string): (r: string)
    ensures |r| <= |s|
    ensures r == [] <==> IsBlank(s)
    ensures r == [] || (!IsTrimmable(r[0]) && !IsTrimmable(r[|r| - 1]))
    ensures exists a, b :: 0 <= a <= b <= |s| && r == s[a..b] && IsBlank(s[..a]) && IsBlank(s[b..])
  {
    var t := TrimStart(s);
    var r := TrimEnd(t);
    var a := |s| - |t|;
    var b := a + |r|;
    assert r == s[a..b] && IsBlank(s[..a]) && IsBlank(s[b..]) by {
      assert t == s[a..];
      forall i | 0 <= i < |s| - b ensures IsTrimmable(s[b..][i]) {
        assert s[b..][i] == t[|r| + i];
      }
    }
    r
  }

  /** `s.length`: the number of UTF-16 code units of `s`, two for a
      character beyond U+FFFF (a surrogate pair) and one for any other. */
  function Utf16Length(s: string): (n: nat)
    ensures |s| <= n <= 2 * |s|
    ensures n == |s| <==> forall i :: 0 <= i < |s| ==> s[i] < '\U{10000}'
    ensures n == 2 * |s| <==> forall i :: 0 <= i < |s| ==> s[i] >= '\U{10000}'
    decreases |s|
  {
    if s == [] then 0
    else (if s[0] < '\U{10000}' then 1 else 2) + Utf16Length(s[1..])
  }

  /** A single character takes one code unit, or two beyond U+FFFF. */
  lemma Utf16LengthChar(c: char)
    ensures Utf16Length([c]) == if c < '\U{10000}' then 1 else 2
  {
  }

  /** The length of a concatenation is the sum of the lengths, so together
      with `Utf16LengthChar` it fixes the length of every string. */
  lemma {:induction false} Utf16LengthAppend(a: string, b: string)
    ensures Utf16Length(a + b) == Utf16Length(a) + Utf16Length(b)
    decreases |a|
  {
    if a != [] {
      assert (a + b)[1..] == a[1..] + b;
      Utf16LengthAppend(a[1..], b);
    } else {
      assert a + b == b;
    }
  }
}

=== FILE: wrappers.dfy ===
/** Small shared datatypes. */
module Wrappers {

  /** A value that may be absent: stands for TypeScript's `T | null | undefined`. */
  datatype Option<+T> = None | Some(value: T)
}
